=== FILE: README.md ===
# drons: beacon localization by time difference of arrival, in Dafny

The system locates a radio beacon from drones that hear it.

- Each drone (a *receiver*) publishes one MQTT message per detection: `receiver:lat:lon:beacon:tos:toa`.
  - `tos` is the time slot of the emission.
  - `toa` is the time of arrival in integer nanoseconds.
- A subscriber splits the payload on `:` and coerces the first six fields into a `BeaconDetection` record, which it inserts into the `beacon_detections` table.
- The HTTP handler for `/api/beacon/{beacon_id}` does the following:
  1. It selects the newest time slot in which at least three distinct receivers heard the beacon, and takes that slot's rows.
  2. It turns arrival times into seconds and into differences relative to the first row.
  3. It calls `tdoa_localization_geodetic`. That function projects the receivers into an azimuthal-equidistant frame centred on their mean latitude and longitude. It scales time differences by the speed of light, minimises the hyperbolic residuals against receiver 0 with a least-squares solver, and projects the answer back as `[lat, lon]`.
  4. It returns the estimate together with one entry per receiver. Each entry carries that receiver's arrival time relative to the first row, in nanoseconds.

The Dafny modules follow the program:

| module | models |
|---|---|
| `Database` (`database.dfy`) | The table as a sequence of rows in insertion order, `save`, and the two queries of `filter_last_detections`. |
| `Subscriber` (`subscriber.dfy`) | `on_message`, plus the publisher's format string as `Encode`. |
| `Text` (`text.dfy`) | `str.split` and `str.join` for a one-character separator. |
| `Numerals` (`numerals.dfy`) | The text-to-number coercions of the record's `int` and `float` fields, and the positional text a coordinate is printed as. |
| `Tdoa` (`tdoa.dfy`) | `tdoa_localization_geodetic`. The projection, `np.linalg.norm` and `least_squares` are function-typed fields of a `Numerics` value passed in. |
| `Server` (`server.dfy`) | `beacon_position_handler` without the HTTP layer. |
| `Doubles` (`doubles.dfy`) | Python's conversion of an `int` to the nearest `float`. |
| `Wrappers` (`wrappers.dfy`) | `Option` and `Result`. |

Every function, lemma and predicate is pure. Arrival times and the `tdoa` reported per drone are integer nanoseconds. The time differences handed to `tdoa_localization_geodetic` are exact real seconds (`toa / 10^9`). `Doubles` (`doubles.dfy`) models only the rounding of an integer to the nearest binary64 value. `Server.ArrivalSecondsAsWritten` uses it to state what `d.toa * 0.1**9` loses (see "## Findings").

Three facts about `tdoa_localization_geodetic` (tdoa.py:24-77) shape the model:

- It has no check that there are at least three receivers. For finite coordinates, the only checks are the length test at tdoa.py:26-27 and the refusal by `least_squares(..., method='lm')` at tdoa.py:70 of fewer residuals than unknowns. The model has both, as `LengthMismatch` and `TooFewResiduals`.
- It does not check the range of the projection origin itself. `Tdoa.OriginValid` proves that valid receivers always give a valid origin. `pyproj`'s own refusals are not modelled (see "## Left out").
- Its result is only `[lat, lon]`, with no convergence flag or residual norm.

## Model

| member | source | states |
|---|---|---|
| Database.Save | database.py:89-108 | Saving appends exactly the new row at the end and leaves every existing row as it was. |
| Database.SlotRows | database.py:79-86 | The second query returns at most as many rows as the table holds, every one with the beacon and the slot. `Database.SlotRowsContents` adds that it keeps exactly such rows, each as often as in the table. |
| Database.ReceiverIds | database.py:64-67 | `count(distinct receiver_id)` counts the set of ids. `Database.ReceiverIdsMembers` proves that an id is in it exactly when some row carries it, and `Database.ReceiverIdsBound` that the count never exceeds the rows. |
| Database.LatestSlotInBounds | database.py:62-73 | A slot chosen among the first n rows belongs to a qualifying row of the beacon, and no qualifying row among them has a later slot. |
| Database.LatestSlot | database.py:62-76 | The first query returns nothing exactly when no slot of the beacon has three distinct receivers; otherwise it returns the newest slot that does. |
| Database.FilterLastDetections | database.py:59-87 | The result is empty exactly when no slot qualifies. Otherwise every row has the beacon and one slot, that slot is the newest qualifying one, and the rows hold at least three distinct receivers and so at least three rows. |
| Database.SelectedRowsAreSlotRows | database.py:77-87 | A non-empty selection holds every table row of the beacon in the selected slot, each as often as in the table, and no other row. |
| Database.SlotRowsContents | database.py:79-86 | The second query keeps a row exactly when it has the beacon and the slot, with the same multiplicity as in the table. |
| Database.ReceiverIdsBound | database.py:64-67 | `count(distinct receiver_id)` never exceeds the number of rows counted. |
| Database.ReceiverIdsMembers | database.py:64-67 | An id is counted exactly when some counted row carries it. |
| Database.SaveOtherBeacon | database.py:59-108 | Saving a detection of another beacon leaves the beacon's selected rows unchanged. |
| Database.SaveNeverRegresses | database.py:59-108 | After any save, a beacon that had a qualifying slot still has one, and the selected slot is no earlier than before. |
| Text.Split | subscriber.py:23 | `split(":")` always yields at least one field. `Text.SplitFieldCount`, `Text.SplitPiecesSeparatorFree` and `Text.JoinSplit` state the field count, that no field holds the separator, and that the fields rejoin into the payload. |
| Text.Join | test.py:44 | The publisher's `:`-separated f-string is a join of its six fields. Its partner is `Text.Split`: `Text.SplitJoin` and `Text.JoinSplit` prove that each undoes the other. |
| Text.SplitFieldCount | subscriber.py:23 | Splitting on `:` yields one more field than there are separators. |
| Text.JoinSplit | subscriber.py:23 | Joining the pieces of a split with the separator restores the payload. |
| Text.SplitJoin | subscriber.py:23 | Splitting a join of separator-free fields gives back exactly those fields. |
| Text.SplitPiecesSeparatorFree | subscriber.py:23 | No field produced by the split contains the separator. |
| Numerals.ParseInt | database.py:55-56 | An `int` field reads digits, and digits after a `-` or `+`, as their decimal value with that sign. `Numerals.ParseIntAccepts` says exactly which texts are accepted, and `Numerals.ParseIntRoundTrip` that `str(n)` reads back as n. |
| Numerals.ParseFloat | database.py:53-54 | A `float` field reads a signed mantissa with an optional exponent. `Numerals.ParseFloatRoundTrip`, `Numerals.ParseFloatOfDigits` and `Numerals.ExponentScales` state its value for positional decimals, digit runs and an exponent. |
| Numerals.ParseIntAccepts | database.py:55-56 | An `int` field accepts a text exactly when it is a digit, or a sign followed by digits, with only digits after the first character. |
| Numerals.ParseIntRoundTrip | database.py:55-56 | The decimal text of any integer is read back as that integer. |
| Numerals.ParseFloatRoundTrip | database.py:53-54 | A decimal coordinate written positionally, with sign, whole part, `.` and fraction, is read back by the `float` field as exactly its value. |
| Numerals.ParseFloatOfDigits | database.py:53-54 | A run of digits is also a valid `float` with the same value as the integer it spells. |
| Numerals.ExponentScales | database.py:53-54 | A `float` field reads a mantissa `w.f` followed by `e` and an integer k as the mantissa's value times 10^k, or divided by 10^-k when k is negative. |
| Numerals.ScaleByPower | database.py:53-54 | Scaling by an exponent of either sign multiplies or divides by the matching power of ten. |
| Numerals.FormattedTextHasNoColon | test.py:44 | The text of a formatted coordinate or integer never contains the field separator. |
| Subscriber.Decode | subscriber.py:23-34 | The decoder behaves as follows. Fewer than six fields is an unpacking failure naming the count. On success, fields 0 to 5 become receiver, latitude, longitude, beacon, slot and arrival time through the `float` and `int` coercions, and `saved_at` is the supplied clock. With six or more fields, decoding fails exactly when one of the four numeric coercions fails. |
| Subscriber.OnMessage | subscriber.py:22-34 | A message that decodes appends its record to the table, leaving the earlier rows as they were. A message that does not decode leaves the table unchanged. |
| Subscriber.Encode | test.py:44 | The publisher's payload: the six fields joined with `:`. `Subscriber.DecodeEncode` proves that the decoder inverts it. |
| Subscriber.DecodeEncode | test.py:42-46 | Decoding the publisher's payload gives back a record with exactly the published receiver, coordinates, beacon, slot and arrival time, provided the ids contain no `:`. |
| Subscriber.ExtraFieldsIgnored | subscriber.py:23 | Fields after the sixth do not change the decoded record. |
| Subscriber.TooFewSeparatorsSavesNothing | subscriber.py:23-34 | A payload with fewer than five separators fails to unpack and saves nothing. |
| Tdoa.Project | tdoa.py:42-44 | Each receiver is projected in input order, passing longitude first. |
| Tdoa.Origin | tdoa.py:31-32 | The projection origin is the mean latitude and mean longitude of the receivers. `Tdoa.OriginValid` proves that it is a valid coordinate when every receiver is, and `Tdoa.Setup` that the frame is centred there. |
| Tdoa.InitialGuess | tdoa.py:47-53 | The solver starts at the projected guess, or else at the mean of the projected receivers. `Tdoa.DefaultStartInsideReceivers` proves that the default lies inside any box that holds the receivers. |
| Tdoa.RangeDifferences | tdoa.py:56 | `delta_d[i]` is the signal speed times the i-th time difference. |
| Tdoa.Residuals | tdoa.py:58-68 | There is one residual per non-reference receiver. Residual k is the distance to receiver k+1 minus the distance to receiver 0, minus `delta_d[k]`. |
| Tdoa.Setup | tdoa.py:24-56 | Setup fails exactly when the time differences do not number one fewer than the receivers. Otherwise the frame is centred on the mean latitude and longitude, the solver gets the projected receivers and the scaled differences, and it starts at the projected guess or else at the mean projected receiver. |
| Tdoa.Localize | tdoa.py:24-77 | Localization fails with `LengthMismatch` exactly when the time differences do not number one fewer than the receivers. Failing that, it fails with `TooFewResiduals` exactly when there are fewer residuals than the two unknowns, that is, fewer than three receivers. Otherwise it returns the inverse projection of the solver's answer with the two coordinates exchanged: latitude is the second output and longitude the first. |
| Tdoa.MeanWithin | tdoa.py:31-32 | A mean of values within bounds lies within the same bounds. |
| Tdoa.OriginValid | tdoa.py:31-32 | Receivers with valid latitude and longitude give a projection origin with valid latitude and longitude. |
| Tdoa.DefaultStartInsideReceivers | tdoa.py:52-53 | Without a guess, the solver starts inside any box that contains all projected receivers. |
| Tdoa.ExactMeasurementsVanish | tdoa.py:56-68 | When the time differences are a source's exact range differences divided by the speed, every residual at the projected source is zero. That point therefore minimises the sum of squares over all candidates. |
| Tdoa.ResidualsVanish | tdoa.py:58-68 | Every residual at a candidate is zero exactly when the candidate's range differences to receiver 0 equal the measured `delta_d`, in both directions. |
| Tdoa.LocalizeRecoversSource | tdoa.py:70-77 | If the solver returns the projected source and the projection round-trips there, the function returns exactly the source, not its coordinates exchanged. |
| Tdoa.ExchangeNonReference | tdoa.py:58-68 | Exchanging two non-reference receivers together with their time differences exchanges the corresponding residuals and leaves the least-squares objective unchanged. |
| Server.ReceiverPositions | server.py:57-60 | One `[lat, lon]` per detection, in order. |
| Server.ArrivalSeconds | server.py:61 | Each arrival time in seconds, multiplied by 10^9, is the detection's nanosecond arrival time. |
| Server.TimeDifferences | server.py:62 | Computing the differences fails exactly when there are no detections. Otherwise there is one difference per later detection, measured from the first. |
| Server.Truncate | server.py:80 | `int()` of a float truncates toward zero: the result is within one of its argument, on the side of zero. |
| Server.Drones | server.py:75-83 | There is one drone entry per detection, in order, with the detection's receiver id and position. Its `tdoa` is exactly that detection's arrival time minus the first detection's, in nanoseconds. |
| Server.BeaconPosition | server.py:57-84 | The handler's work on the selected rows fails exactly when there are at most two. None fails at `times[0]`; one or two fail in the solver for too few residuals. On success, the beacon is exactly what `tdoa_localization_geodetic` returns for the rows' positions and time differences. The drones follow the rows one for one with receiver id, latitude, longitude and relative arrival time, as in `Server.Drones`. |
| Server.BeaconPositionHandler | server.py:52-84 | The handler fails exactly when no slot of the beacon qualifies. On success, the rows come from the newest qualifying slot, which has at least three distinct receivers. The beacon is exactly what `tdoa_localization_geodetic` returns for those rows' positions and time differences. Every reported drone comes from a row of that beacon and slot, in order, with its receiver id, latitude, longitude and relative arrival time. |
| Server.ReportedDifferencesMatchSolverInput | server.py:61-84 | The differences passed to the solver and the `tdoa` reported per drone are the same nanosecond differences. Each `delta_d` is the distance light travels in that time, and the first drone's `tdoa` is zero. |
| Server.HandlerRecoversSource | server.py:55-74 | If some slot qualifies, the solver lands on the projected source, and the projection round-trips there, the handler reports the source as the beacon's position. |
| Server.ArrivalSecondsAsWritten | server.py:61 | As written, each arrival time is converted to a double before scaling, so detections whose arrival times convert to the same double get the same time in seconds. |
| Doubles.ToDouble | server.py:61 | Converting an integer to a float gives an integer multiple of the spacing at the integer's magnitude, within half a spacing of it. On a tie, exactly half a spacing away, it gives an even multiple. The integer itself comes back when its magnitude is below 2^53. |
| Doubles.RoundNatNearest | server.py:61 | A converted non-negative integer is a multiple of the spacing, at most half a spacing from its exact value, and an even multiple on a tie. |
| Doubles.RoundToMultiple | server.py:61 | Rounding to the nearer multiple of a spacing, with half-way cases going to the even quotient, gives a multiple within half a spacing, and an even multiple on a tie. |
| Doubles.SpacingAt | server.py:61 | Between 2^(52+k) and 2^(53+k), consecutive doubles are 2^k apart. |
| Server.EpochNanosecondsCollide | server.py:61 | The epoch-nanosecond times 1700000000000000000 and 1700000000000000128 convert to the same double. |
| Server.RoundedArrivalsLoseNanoseconds | server.py:61-80 | As written, two arrivals 128 ns apart at epoch magnitude get a time difference of zero and a reported `tdoa` of zero. The exact drone list reports 128. |

## Left out

- `least_squares`, `pyproj`'s forward and inverse `aeqd` transforms and `np.linalg.norm` are abstract function parameters. No property of the Levenberg–Marquardt iteration, of the projection or of the norm is assumed beyond what a lemma states in its `requires`.
- Apart from `Server.ArrivalSecondsAsWritten`, floating point is modelled as exact reals. This covers IEEE rounding of the product in `d.toa * 0.1**9`, in the subtraction of nearly equal times, and in `int(10**9 * …)`. The rest of the model and the solver input use exact seconds.
- Server.Drones: reports the exact nanosecond difference, which is what the code evidently intends (see "## Findings"). In the source, `d.toa * 0.1**9` first converts the epoch-nanosecond `toa` (about 1.7e18, above 2^60) to a double, which rounds it to a multiple of 256 ns. The product, about 1.7e9 s, is itself a double about 238 ns apart from its neighbours. So `times[n] - times[0]` and the reported `tdoa` can be off by hundreds of nanoseconds, which is roughly 70 m of range at the speed of light. Only the first rounding is modelled, in `Server.ArrivalSecondsAsWritten`.
- Numerals.ParseInt: rejects surrounding whitespace, `_` digit separators and integral float text such as `"3.0"`, which pydantic's lax mode accepts for an `int` field.
- Numerals.ParseFloat: rejects surrounding whitespace, `_` digit separators and `inf`/`nan`/`infinity`, which pydantic accepts for a `float` field, and reads a numeral as its exact real value rather than the nearest double.
- Numerals.ParseIntAccepts: covers a subset of what pydantic's lax mode accepts for an `int` field. Surrounding whitespace, `_` digit separators and integral float text such as `"3.0"` are rejected by the model.
- Numerals.ParseFloatRoundTrip: covers the positional text `d.ddd` of a coordinate, which is what `repr` prints for latitudes and longitudes between 1e-4 and 1e16 in magnitude. Scientific output such as `1e-05` for tiny coordinates is parsed by the model but has no round-trip lemma. The `float` grammar also omits surrounding whitespace, `_` digit separators, and `inf`/`nan`/`infinity`, which pydantic accepts.
- Subscriber.Decode: when several fields are invalid, pydantic reports all of them in one `ValidationError`, and the model reports only the first. Only whether decoding fails is modelled faithfully.
- Decoding the payload bytes as UTF-8 is left out. Payloads are strings of characters.
- MQTT connection and subscription, the `psycopg2` connection pool and transactions, FastAPI routing, templates and logging are left out.
- The `saved_at` wall clock is a parameter.
- SQL returns rows in no guaranteed order. The model returns them in insertion order, and every stated property holds for that order.
- Tdoa.ExchangeNonReference: independence of receiver order is proved one exchange of two non-reference receivers at a time. The general permutation follows by composing exchanges but is not stated as one lemma.
- Two failures of `tdoa_localization_geodetic` are not modelled, and the model returns `Success` where the source raises in either case. One is `least_squares` raising `ValueError` when a residual at the starting point is not finite (tdoa.py:70). The other is `pyproj` refusing a non-finite or out-of-range `lat_0` (tdoa.py:37). The projection and the solver are total functions in the model. The model's coordinates are finite reals, because its `float` coercion rejects `nan` and `inf`.
- The `__main__` demonstration in `tdoa.py` and the distance computations of the test publisher (`geopy`) are left out.

## Findings

| source | as written | input that shows it | evidently intended | confidence | as-written member | corrected member |
|---|---|---|---|---|---|---|
| server.py:61 | `d.toa * 0.1**9` converts each epoch-nanosecond `toa` to a double before differencing, so arrival times are rounded to 256-ns steps. | Two detections with `toa` 1700000000000000000 and 1700000000000000128 get time difference 0 and reported `tdoa` 0. | Subtract integer nanoseconds first and scale the difference, so that the reported `tdoa` is exactly 128. | not executed | Server.RoundedArrivalsLoseNanoseconds | Server.Drones |

=== FILE: database.dfy ===
/**
 * The `beacon_detections` table and the two queries of `BeaconDetection`: `save`
 * appends a row, and `filter_last_detections` picks the newest time slot in which
 * enough distinct receivers heard a beacon and returns that slot's rows.
 */
module Database {
  import opened Wrappers

  /** Fewest distinct receivers (`having count(distinct receiver_id) >= 3`) that make a slot usable. */
  const MinReceivers: nat := 3

  /** One row of `beacon_detections`: a receiver hearing a beacon. */
  datatype Detection = Detection(
    beaconId: string,
    savedAt: int,       // wall-clock timestamp, supplied by the caller
    receiverId: string,
    receiverLat: real,
    receiverLon: real,
    toa: int,           // time of arrival, integer nanoseconds
    tos: int)           // time slot of the emission

  /** The table's rows in insertion order. */
  type Table = seq<Detection>

  /** `save`: insert one row; the rows already there stay as they were. */
  function Save(table: Table, d: Detection): (t: Table)
    ensures |t| == |table| + 1
    ensures t[..|table|] == table
    ensures t[|table|] == d
  {
    table + [d]
  }

  /** `where beacon_id = %s and tos = %s`: every row of `beacon` in slot `tos`, duplicates kept. */
  function SlotRows(table: Table, beacon: string, tos: int): (rows: seq<Detection>)
    ensures |rows| <= |table|
    ensures forall i :: 0 <= i < |rows| ==> rows[i].beaconId == beacon && rows[i].tos == tos
  {
    if |table| == 0 then []
    else
      (if table[0].beaconId == beacon && table[0].tos == tos then [table[0]] else [])
      + SlotRows(table[1..], beacon, tos)
  }

  /** The distinct receiver ids among some rows: what `count(distinct receiver_id)` counts. */
  function ReceiverIds(rows: seq<Detection>): set<string>
  {
    if |rows| == 0 then {} else {rows[0].receiverId} + ReceiverIds(rows[1..])
  }

  /** Slot `tos` of `beacon` has at least `MinReceivers` distinct receivers. */
  predicate Qualifies(table: Table, beacon: string, tos: int)
  {
    |ReceiverIds(SlotRows(table, beacon, tos))| >= MinReceivers
  }

  /** `tos` qualifies and no later slot of the beacon does. */
  ghost predicate IsLatestSlot(table: Table, beacon: string, tos: int)
  {
    && Qualifies(table, beacon, tos)
    && forall t :: Qualifies(table, beacon, t) ==> t <= tos
  }

  /** Row `i` belongs to `beacon` and its slot qualifies. */
  predicate IsCandidate(table: Table, beacon: string, i: nat)
    requires i < |table|
  {
    table[i].beaconId == beacon && Qualifies(table, beacon, table[i].tos)
  }

  /** The newest qualifying slot of `beacon` among the slots of the first `n` rows. */
  function LatestSlotIn(table: Table, beacon: string, n: nat): Option<int>
    requires n <= |table|
  {
    if n == 0 then None
    else
      var previous := LatestSlotIn(table, beacon, n - 1);
      if IsCandidate(table, beacon, n - 1) && (previous.None? || previous.value < table[n - 1].tos) then
        Some(table[n - 1].tos)
      else
        previous
  }

  /** The running maximum is attained by a candidate row and bounds every candidate row. */
  lemma {:induction false} LatestSlotInBounds(table: Table, beacon: string, n: nat)
    requires n <= |table|
    ensures var r := LatestSlotIn(table, beacon, n);
      && (r.Some? ==> exists i :: 0 <= i < n && IsCandidate(table, beacon, i) && table[i].tos == r.value)
      && (forall i :: 0 <= i < n && IsCandidate(table, beacon, i) ==> r.Some? && table[i].tos <= r.value)
  {
    if n > 0 {
      LatestSlotInBounds(table, beacon, n - 1);
    }
  }

  /**
   * The first query (`group by beacon_id, tos ... order by tos desc limit 1`):
   * the newest qualifying slot of `beacon`, or `None` when no slot qualifies.
   */
  function LatestSlot(table: Table, beacon: string): (r: Option<int>)
    ensures r.None? <==> forall t :: !Qualifies(table, beacon, t)
    ensures r.Some? ==> IsLatestSlot(table, beacon, r.value)
  {
    var r := LatestSlotIn(table, beacon, |table|);
    LatestSlotInBounds(table, beacon, |table|);
    forall t | Qualifies(table, beacon, t)
      ensures r.Some? && t <= r.value
    {
      QualifyingSlotHasRow(table, beacon, t);
      var i :| 0 <= i < |table| && table[i].beaconId == beacon && table[i].tos == t;
      assert IsCandidate(table, beacon, i);
    }
    r
  }

  /**
   * `filter_last_detections`: the rows of the newest slot in which at least three
   * distinct receivers heard `beacon`, or nothing when no slot qualifies.
   */
  function FilterLastDetections(table: Table, beacon: string): (r: seq<Detection>)
    ensures r == [] <==> forall t :: !Qualifies(table, beacon, t)
    ensures forall i :: 0 <= i < |r| ==> r[i].beaconId == beacon && r[i].tos == r[0].tos
    ensures r != [] ==> IsLatestSlot(table, beacon, r[0].tos)
    ensures r != [] ==> |ReceiverIds(r)| >= MinReceivers && |r| >= MinReceivers
  {
    match LatestSlot(table, beacon)
    case None => []
    case Some(t) =>
      var rows := SlotRows(table, beacon, t);
      ReceiverIdsBound(rows);
      SlotRowsContents(table, beacon, t);
      assert rows[0] in rows;
      rows
  }

  /**
   * The selected rows are all of the table's rows of the beacon in the selected slot,
   * each as often as in the table, and nothing else.
   */
  lemma SelectedRowsAreSlotRows(table: Table, beacon: string)
    requires FilterLastDetections(table, beacon) != []
    ensures var r := FilterLastDetections(table, beacon);
            forall d :: multiset(r)[d] == if d.beaconId == beacon && d.tos == r[0].tos then multiset(table)[d] else 0
  {
    var r := FilterLastDetections(table, beacon);
    SlotRowsContents(table, beacon, r[0].tos);
  }

  /** The slot's rows are exactly the table's rows of that beacon and slot, each as often as in the table. */
  lemma {:induction false} SlotRowsContents(table: Table, beacon: string, tos: int)
    ensures forall d :: d in SlotRows(table, beacon, tos) <==> d in table && d.beaconId == beacon && d.tos == tos
    ensures forall d :: multiset(SlotRows(table, beacon, tos))[d] ==
                        if d.beaconId == beacon && d.tos == tos then multiset(table)[d] else 0
  {
    if |table| > 0 {
      assert table == [table[0]] + table[1..];
      SlotRowsContents(table[1..], beacon, tos);
    }
  }

  /** A qualifying slot is the slot of some row of the beacon. */
  lemma QualifyingSlotHasRow(table: Table, beacon: string, tos: int)
    requires Qualifies(table, beacon, tos)
    ensures exists i :: 0 <= i < |table| && table[i].beaconId == beacon && table[i].tos == tos
  {
    var rows := SlotRows(table, beacon, tos);
    ReceiverIdsBound(rows);
    SlotRowsContents(table, beacon, tos);
    assert rows[0] in table;
  }

  /** Rows cannot have more distinct receivers than there are rows. */
  lemma {:induction false} ReceiverIdsBound(rows: seq<Detection>)
    ensures |ReceiverIds(rows)| <= |rows|
  {
    if |rows| > 0 {
      ReceiverIdsBound(rows[1..]);
    }
  }

  /** An id is counted exactly when some row carries it. */
  lemma {:induction false} ReceiverIdsMembers(rows: seq<Detection>)
    ensures forall id :: id in ReceiverIds(rows) <==> exists d :: d in rows && d.receiverId == id
  {
    if |rows| > 0 {
      ReceiverIdsMembers(rows[1..]);
      assert forall d :: d in rows <==> d == rows[0] || d in rows[1..] by {
        assert rows == [rows[0]] + rows[1..];
      }
    }
  }

  /** Appending a row adds its receiver id to the distinct ids. */
  lemma {:induction false} ReceiverIdsAppend(rows: seq<Detection>, d: Detection)
    ensures ReceiverIds(rows + [d]) == ReceiverIds(rows) + {d.receiverId}
  {
    if |rows| == 0 {
      assert rows + [d] == [d];
    } else {
      assert (rows + [d])[1..] == rows[1..] + [d];
      ReceiverIdsAppend(rows[1..], d);
    }
  }

  /** Appending a row adds it to the rows of its own slot and to no other. */
  lemma {:induction false} SlotRowsAppend(table: Table, d: Detection, beacon: string, tos: int)
    ensures SlotRows(table + [d], beacon, tos) ==
            SlotRows(table, beacon, tos) + (if d.beaconId == beacon && d.tos == tos then [d] else [])
  {
    if |table| == 0 {
      assert table + [d] == [d];
    } else {
      assert (table + [d])[1..] == table[1..] + [d];
      SlotRowsAppend(table[1..], d, beacon, tos);
    }
  }

  /** Saving a detection of another beacon does not change what is selected for this one. */
  lemma SaveOtherBeacon(table: Table, d: Detection, beacon: string)
    requires d.beaconId != beacon
    ensures FilterLastDetections(Save(table, d), beacon) == FilterLastDetections(table, beacon)
  {
    var table' := Save(table, d);
    forall t
      ensures SlotRows(table', beacon, t) == SlotRows(table, beacon, t)
    {
      SlotRowsAppend(table, d, beacon, t);
    }
    assert forall t :: Qualifies(table', beacon, t) == Qualifies(table, beacon, t);
    var before := LatestSlot(table, beacon);
    var after := LatestSlot(table', beacon);
    if before.Some? {
      assert Qualifies(table', beacon, before.value);
      assert before.value <= after.value;
      assert Qualifies(table, beacon, after.value);
    }
    assert after == before;
  }

  /** A slot that qualified still qualifies after a save, so the selected slot never moves back in time. */
  lemma SaveNeverRegresses(table: Table, d: Detection, beacon: string)
    requires FilterLastDetections(table, beacon) != []
    ensures FilterLastDetections(Save(table, d), beacon) != []
    ensures FilterLastDetections(table, beacon)[0].tos <= FilterLastDetections(Save(table, d), beacon)[0].tos
  {
    var t := FilterLastDetections(table, beacon)[0].tos;
    var table' := Save(table, d);
    SlotRowsAppend(table, d, beacon, t);
    var before := ReceiverIds(SlotRows(table, beacon, t));
    var after := ReceiverIds(SlotRows(table', beacon, t));
    var rows := SlotRows(table, beacon, t);
    if d.beaconId == beacon && d.tos == t {
      assert SlotRows(table', beacon, t) == rows + [d];
      ReceiverIdsAppend(rows, d);
    } else {
      assert SlotRows(table', beacon, t) == rows + [];
      assert rows + [] == rows;
    }
    assert before <= after;
    SubsetCardinality(before, after);
    assert Qualifies(table', beacon, t);
    var r' := FilterLastDetections(table', beacon);
    assert r' != [];
    assert IsLatestSlot(table', beacon, r'[0].tos);
  }

  lemma SubsetCardinality<T>(a: set<T>, b: set<T>)
    requires a <= b
    ensures |a| <= |b|
  {
    assert b == a + (b - a);
  }
}

=== FILE: doubles.dfy ===
/**
 * Conversion of an integer to an IEEE 754 binary64 value, as Python does when an
 * `int` is multiplied by a `float`: the nearest double, ties going to the even
 * significand. Only the significand width matters for the magnitudes involved;
 * the exponent range (overflow past the largest double) is not modelled.
 */
module Doubles {

  /** Bits in a binary64 significand, the implicit leading bit included. */
  const SignificandBits: nat := 53

  function Pow2(k: nat): (p: nat)
    ensures p >= 1
  {
    if k == 0 then 1 else 2 * Pow2(k - 1)
  }

  /** Distance between consecutive doubles at the magnitude `n`. */
  function Spacing(n: nat): (s: nat)
    ensures s >= 1
  {
    if n < Pow2(SignificandBits) then 1 else 2 * Spacing(n / 2)
  }

  /**
   * The double nearest to `n`, as an integer: of the multiples of the spacing just
   * below and just above `n`, the closer one, or on a tie the one with an even quotient.
   */
  function RoundNat(n: nat): int
  {
    var s := Spacing(n);
    var below, rem := n - n % s, n % s;
    if 2 * rem < s || (2 * rem == s && (n / s) % 2 == 0) then below else below + s
  }

  /**
   * `float(n)`: a multiple of the spacing at `|n|`, within half a spacing of `n`,
   * an even multiple on a tie, and `n` itself when it is below 2^53 in magnitude.
   */
  function ToDouble(n: int): (r: real)
    ensures var m := if n >= 0 then n else -n;
            && 2.0 * (r - n as real) <= Spacing(m) as real
            && 2.0 * (n as real - r) <= Spacing(m) as real
    ensures var s := Spacing(if n >= 0 then n else -n);
            exists q: int :: r == (q * s) as real
    ensures var s := Spacing(if n >= 0 then n else -n);
            (2.0 * (r - n as real) == s as real || 2.0 * (n as real - r) == s as real) ==>
              exists q: int :: r == (2 * q * s) as real
    ensures -(Pow2(SignificandBits) as int) < n < Pow2(SignificandBits) ==> r == n as real
  {
    var m := if n >= 0 then n else -n;
    var r := if n >= 0 then RoundNat(m) as real else -(RoundNat(m) as real);
    RoundNatNearest(m);
    SmallExact(m);
    Signed(n, Spacing(m), RoundNat(m), r);
    r
  }

  /** Below 2^53 the spacing is 1, so rounding leaves the integer as it is. */
  lemma SmallExact(m: nat)
    ensures m < Pow2(SignificandBits) ==> RoundNat(m) == m
  {
    if m < Pow2(SignificandBits) {
      assert Spacing(m) == 1;
      assert m % 1 == 0 && m / 1 == m;
    }
  }

  /** Rounding the magnitude and restoring the sign keeps every property of the rounding. */
  lemma Signed(n: int, s: int, rounded: int, r: real)
    requires s >= 1
    requires var m := if n >= 0 then n else -n;
             2 * (rounded - m) <= s && 2 * (m - rounded) <= s
    requires exists q: int :: rounded == q * s
    requires var m := if n >= 0 then n else -n;
             2 * (rounded - m) == s || 2 * (m - rounded) == s ==> exists q: int :: rounded == 2 * q * s
    requires r == if n >= 0 then rounded as real else -(rounded as real)
    ensures 2.0 * (r - n as real) <= s as real && 2.0 * (n as real - r) <= s as real
    ensures exists q: int :: r == (q * s) as real
    ensures (2.0 * (r - n as real) == s as real || 2.0 * (n as real - r) == s as real) ==>
              exists q: int :: r == (2 * q * s) as real
  {
    var q :| rounded == q * s;
    if n >= 0 {
      assert r == (q * s) as real;
    } else {
      assert r == ((-q) * s) as real;
    }
    if 2.0 * (r - n as real) == s as real || 2.0 * (n as real - r) == s as real {
      var m := if n >= 0 then n else -n;
      assert 2 * (rounded - m) == s || 2 * (m - rounded) == s;
      var h :| rounded == 2 * h * s;
      if n >= 0 {
        assert r == (2 * h * s) as real;
      } else {
        assert r == (2 * (-h) * s) as real;
      }
    }
  }

  /**
   * The converted value is a multiple of the spacing at most half a spacing from `n`,
   * and on a tie, exactly half a spacing away, it is an even multiple.
   */
  lemma RoundNatNearest(n: nat)
    ensures 2 * (RoundNat(n) - n) <= Spacing(n) && 2 * (n - RoundNat(n)) <= Spacing(n)
    ensures exists q: int :: RoundNat(n) == q * Spacing(n)
    ensures 2 * (RoundNat(n) - n) == Spacing(n) || 2 * (n - RoundNat(n)) == Spacing(n) ==>
              exists q: int :: RoundNat(n) == 2 * q * Spacing(n)
  {
    RoundToMultiple(n, Spacing(n), RoundNat(n));
  }

  /** Rounding `n` to a multiple of `s`, half-way cases to the even quotient. */
  lemma RoundToMultiple(n: nat, s: int, r: int)
    requires s >= 1
    requires r == if 2 * (n % s) < s || (2 * (n % s) == s && (n / s) % 2 == 0) then n - n % s else n - n % s + s
    ensures 2 * (r - n) <= s && 2 * (n - r) <= s
    ensures exists q: int :: r == q * s
    ensures 2 * (r - n) == s || 2 * (n - r) == s ==> exists q: int :: r == 2 * q * s
  {
    var q, rem := n / s, n % s;
    var p := q * s;
    assert n == p + rem;
    if r == n - rem {
      assert r == q * s;
      if 2 * (r - n) == s || 2 * (n - r) == s {
        EvenMultiple(q, s);
      }
    } else {
      MultipleStep(q, s);
      assert r == (q + 1) * s;
      if 2 * (r - n) == s || 2 * (n - r) == s {
        assert (q + 1) % 2 == 0;
        EvenMultiple(q + 1, s);
      }
    }
  }

  lemma MultipleStep(q: int, s: int)
    ensures (q + 1) * s == q * s + s
  {
  }

  lemma EvenMultiple(q: int, s: int)
    requires q % 2 == 0
    ensures q * s == 2 * (q / 2) * s
  {
    assert q == 2 * (q / 2);
  }

  /** Between 2^(52+k) and 2^(53+k) consecutive doubles are 2^k apart. */
  lemma {:induction false} SpacingAt(n: nat, k: nat)
    requires Pow2(52 + k) <= n < Pow2(53 + k)
    ensures Spacing(n) == Pow2(k)
  {
    if k > 0 {
      var p, half := Pow2(51 + k), n / 2;
      assert Pow2(52 + k) == 2 * p && Pow2(53 + k) == 4 * p;
      assert n == 2 * half + n % 2;
      Pow2Monotone(53, 52 + k);
      SpacingAt(half, k - 1);
    }
  }

  lemma {:induction false} Pow2Monotone(a: nat, b: nat)
    requires a <= b
    ensures Pow2(a) <= Pow2(b)
  {
    if a < b {
      Pow2Monotone(a, b - 1);
    }
  }

  lemma {:induction false} Pow2Add(a: nat, b: nat)
    ensures Pow2(a + b) == Pow2(a) * Pow2(b)
  {
    if b > 0 {
      Pow2Add(a, b - 1);
    }
  }

  /** The powers of two around epoch nanoseconds, and the spacing found there. */
  lemma Pow2Values()
    ensures Pow2(8) == 256
    ensures Pow2(60) == 1152921504606846976
    ensures Pow2(61) == 2305843009213693952
  {
    assert Pow2(1) == 2;
    Pow2Add(1, 1);
    assert Pow2(2) == 4;
    Pow2Add(2, 2);
    assert Pow2(4) == 16;
    Pow2Add(4, 4);
    assert Pow2(8) == 256;
    Pow2Add(8, 8);
    assert Pow2(16) == 65536;
    Pow2Add(16, 16);
    assert Pow2(32) == 4294967296;
    Pow2Add(32, 16);
    assert Pow2(48) == 281474976710656;
    Pow2Add(48, 8);
    assert Pow2(56) == 72057594037927936;
    Pow2Add(56, 4);
    assert Pow2(60) == 1152921504606846976;
    Pow2Add(60, 1);
  }
}

=== FILE: numerals.dfy ===
/**
 * Decimal numerals: the text forms `str()` writes for integers and floats, and the
 * grammar the record's `int` and `float` fields accept when coercing a string.
 */
module Numerals {
  import opened Wrappers
  import opened Text

  predicate IsDigit(c: char) {
    '0' <= c <= '9'
  }

  predicate AllDigits(s: string) {
    forall i :: 0 <= i < |s| ==> IsDigit(s[i])
  }

  function DigitValue(c: char): (d: nat)
    requires IsDigit(c)
    ensures d < 10
  {
    c as int - '0' as int
  }

  function DigitChar(d: nat): (c: char)
    requires d < 10
    ensures IsDigit(c) && DigitValue(c) == d
  {
    ('0' as int + d) as char
  }

  function Pow10(k: nat): (p: nat)
    ensures p >= 1
  {
    if k == 0 then 1 else 10 * Pow10(k - 1)
  }

  /** `m * 10^e` for a possibly negative exponent, one multiplication or division by ten per step. */
  function ScaleBy(m: real, e: int): real
    decreases if e >= 0 then e else -e
  {
    if e == 0 then m else if e > 0 then 10.0 * ScaleBy(m, e - 1) else ScaleBy(m, e + 1) / 10.0
  }

  /** Value of a run of digits, most significant first; the empty run is 0. */
  function DigitsValue(s: string): nat
    requires AllDigits(s)
  {
    if |s| == 0 then 0
    else DigitsValue(s[..|s| - 1]) * 10 + DigitValue(s[|s| - 1])
  }

  /** `str(n)` for a non-negative integer: shortest decimal digits. */
  function NatToString(n: nat): (s: string)
    ensures |s| >= 1 && AllDigits(s)
  {
    if n < 10 then [DigitChar(n)] else NatToString(n / 10) + [DigitChar(n % 10)]
  }

  /** `str(n)` for any integer. */
  function IntToString(n: int): string
  {
    if n < 0 then "-" + NatToString(-n) else NatToString(n)
  }

  function Zeros(k: nat): (z: string)
    ensures |z| == k && AllDigits(z)
  {
    if k == 0 then "" else Zeros(k - 1) + "0"
  }

  /** `s` preceded by enough zeros to make it `width` characters long. */
  function PadLeft(s: string, width: nat): string
  {
    if |s| >= width then s else Zeros(width - |s|) + s
  }

  /** Separates one leading `+` or `-` from the rest; the flag tells whether it was `-`. */
  function SplitSign(s: string): (bool, string)
  {
    if |s| >= 1 && (s[0] == '-' || s[0] == '+') then (s[0] == '-', s[1..]) else (false, s)
  }

  /** `int(s)` for an optionally signed, non-empty run of ASCII digits; `None` for anything else. */
  function ParseInt(s: string): (r: Option<int>)
    ensures AllDigits(s) && |s| >= 1 ==> r == Some(DigitsValue(s) as int)
    ensures |s| >= 2 && s[0] == '-' && AllDigits(s[1..]) ==> r == Some(-(DigitsValue(s[1..]) as int))
    ensures |s| >= 2 && s[0] == '+' && AllDigits(s[1..]) ==> r == Some(DigitsValue(s[1..]) as int)
  {
    var (negative, digits) := SplitSign(s);
    if |digits| >= 1 && AllDigits(digits) then
      Some(if negative then -(DigitsValue(digits) as int) else DigitsValue(digits) as int)
    else None
  }

  /**
   * `float(s)` for an optionally signed decimal numeral: digits with an optional
   * fractional part (at least one digit in all) and an optional exponent `e`/`E`
   * followed by an optionally signed integer; `None` for anything else.
   */
  function ParseFloat(s: string): (r: Option<real>)
  {
    var (negative, body) := SplitSign(s);
    match ParseUnsignedFloat(body)
    case None => None
    case Some(magnitude) => Some(if negative then -magnitude else magnitude)
  }

  /** An unsigned numeral: a mantissa, then optionally `e`/`E` and a signed exponent. */
  function ParseUnsignedFloat(body: string): (r: Option<real>)
  {
    var e := Find(body, {'e', 'E'});
    var exponent := if e == |body| then Some(0) else ParseInt(body[e + 1..]);
    var mantissa := ParseMantissa(body[..e]);
    if exponent.Some? && mantissa.Some? then Some(ScaleBy(mantissa.value, exponent.value)) else None
  }

  /** Digits with at most one `.` among them, and at least one digit. */
  function ParseMantissa(m: string): (r: Option<real>)
  {
    var dot := Find(m, {'.'});
    var whole := m[..dot];
    var fraction := if dot == |m| then "" else m[dot + 1..];
    if AllDigits(whole) && AllDigits(fraction) && |whole| + |fraction| >= 1 then
      Some(PositionalValue(whole, fraction))
    else None
  }

  /** The value of the numeral `whole.fraction`. */
  function PositionalValue(whole: string, fraction: string): real
    requires AllDigits(whole) && AllDigits(fraction)
  {
    DigitsValue(whole) as real + FractionValue(fraction)
  }

  /** Value of the digits after a decimal point, read left to right: `.d e…` is `(d + .e…) / 10`. */
  function FractionValue(f: string): real
    requires AllDigits(f)
  {
    if |f| == 0 then 0.0 else (DigitValue(f[0]) as real + FractionValue(f[1..])) / 10.0
  }

  /** `n` shifted `k` places right of the decimal point, one division by ten per place. */
  function Shifted(n: nat, k: nat): real
  {
    if k == 0 then n as real else Shifted(n, k - 1) / 10.0
  }

  /**
   * A finite decimal `±(whole + fraction / 10^scale)`: a coordinate as its positional
   * repr prints it. `fraction` must fit in `scale` digits.
   */
  datatype Decimal = Decimal(negative: bool, whole: nat, fraction: nat, scale: nat) {
    predicate Valid() {
      fraction < Pow10(scale)
    }

    function Value(): real {
      var magnitude := whole as real + Shifted(fraction, scale);
      if negative then -magnitude else magnitude
    }
  }

  /** A positive exponent multiplies by `10^k`. */
  lemma {:induction false} ScaleUpValue(m: real, k: nat)
    ensures ScaleBy(m, k) == m * Pow10(k) as real
  {
    if k > 0 {
      ScaleUpValue(m, k - 1);
      var p := Pow10(k - 1) as real;
      assert Pow10(k) as real == 10.0 * p;
      assert m * (10.0 * p) == 10.0 * (m * p);
    }
  }

  /** A negative exponent divides by `10^k`. */
  lemma {:induction false} ScaleDownValue(m: real, k: nat)
    ensures ScaleBy(m, -(k as int)) * Pow10(k) as real == m
  {
    if k > 0 {
      ScaleDownValue(m, k - 1);
      var p := Pow10(k - 1) as real;
      var y := ScaleBy(m, -((k - 1) as int));
      assert ScaleBy(m, -(k as int)) == y / 10.0;
      assert Pow10(k) as real == 10.0 * p;
      assert (y / 10.0) * (10.0 * p) == y * p;
    }
  }

  /** An exponent of either sign multiplies or divides by the matching power of ten. */
  lemma ScaleByPower(m: real, k: int)
    ensures ScaleBy(m, k) == if k >= 0 then m * Pow10(k) as real else m / Pow10(-k) as real
  {
    if k >= 0 {
      ScaleUpValue(m, k);
    } else {
      var j: nat := -k;
      var p := Pow10(j) as real;
      ScaleDownValue(m, j);
      assert ScaleBy(m, k) * p == m;
    }
  }

  /** Shifting `k` places divides by `10^k`. */
  lemma {:induction false} ShiftedValue(n: nat, k: nat)
    ensures Shifted(n, k) * Pow10(k) as real == n as real
  {
    if k > 0 {
      ShiftedValue(n, k - 1);
      assert Pow10(k) as real == 10.0 * Pow10(k - 1) as real;
    }
  }

  /** The fraction digits `FormatDecimal` writes: `scale` of them, or a single `0` when scale is 0. */
  function FractionText(fraction: nat, scale: nat): string
  {
    if scale == 0 then "0" else PadLeft(NatToString(fraction), scale)
  }

  function SignText(negative: bool): string
  {
    if negative then "-" else ""
  }

  /** Whole digits, a dot, fraction digits. */
  function PositionalText(whole: string, fraction: string): string
  {
    whole + "." + fraction
  }

  /** Positional text of a decimal: sign, whole part, `.`, the fraction digits. */
  function FormatDecimal(d: Decimal): string
    requires d.Valid()
  {
    SignText(d.negative) + PositionalText(NatToString(d.whole), FractionText(d.fraction, d.scale))
  }

  lemma {:induction false} NatToStringValue(n: nat)
    ensures DigitsValue(NatToString(n)) == n
  {
    if n >= 10 {
      var s := NatToString(n / 10);
      var t := s + [DigitChar(n % 10)];
      assert t[..|t| - 1] == s;
      NatToStringValue(n / 10);
    } else {
      assert NatToString(n)[..0] == [];
    }
  }

  /** A number below 10^k needs at most k digits. */
  lemma {:induction false} NatToStringLength(n: nat, k: nat)
    requires k >= 1 && n < Pow10(k)
    ensures |NatToString(n)| <= k
  {
    if n >= 10 {
      assert Pow10(1) == 10;
      assert k >= 2;
      assert n / 10 < Pow10(k - 1);
      NatToStringLength(n / 10, k - 1);
    }
  }

  lemma {:induction false} ZerosValue(k: nat)
    ensures DigitsValue(Zeros(k)) == 0
  {
    if k > 0 {
      assert Zeros(k)[..k - 1] == Zeros(k - 1);
      ZerosValue(k - 1);
    }
  }

  /** Leading zeros do not change the value of a digit run. */
  lemma {:induction false} LeadingZerosValue(k: nat, s: string)
    requires AllDigits(s)
    ensures AllDigits(Zeros(k) + s)
    ensures DigitsValue(Zeros(k) + s) == DigitsValue(s)
  {
    var t := Zeros(k) + s;
    if |s| == 0 {
      assert t == Zeros(k);
      ZerosValue(k);
    } else {
      assert t[..|t| - 1] == Zeros(k) + s[..|s| - 1];
      LeadingZerosValue(k, s[..|s| - 1]);
    }
  }

  /** `int()` accepts exactly a digit or sign followed by digits, with at least one digit. */
  lemma ParseIntAccepts(s: string)
    ensures ParseInt(s).Some? <==>
              && |s| >= 1
              && (IsDigit(s[0]) || ((s[0] == '-' || s[0] == '+') && |s| >= 2))
              && forall i :: 1 <= i < |s| ==> IsDigit(s[i])
  {
  }

  /** The integer text `str()` writes is read back by `int()`. */
  lemma ParseIntRoundTrip(n: int)
    ensures ParseInt(IntToString(n)) == Some(n)
  {
    NatToStringValue(if n < 0 then -n else n);
    if n < 0 {
      assert ("-" + NatToString(-n))[1..] == NatToString(-n);
    }
  }

  /** Padding with zeros on the left reaches the width and keeps the value. */
  lemma PadLeftValue(s: string, width: nat)
    requires AllDigits(s) && |s| <= width
    ensures |PadLeft(s, width)| == width && AllDigits(PadLeft(s, width))
    ensures DigitsValue(PadLeft(s, width)) == DigitsValue(s)
  {
    if |s| < width {
      LeadingZerosValue(width - |s|, s);
    }
  }

  /** The fraction written by `FormatDecimal`, read as digits over a power of ten, is `fraction / 10^scale`. */
  lemma FractionTextValue(fraction: nat, scale: nat)
    requires fraction < Pow10(scale)
    ensures AllDigits(FractionText(fraction, scale))
    ensures FractionValue(FractionText(fraction, scale)) == Shifted(fraction, scale)
  {
    var f := FractionText(fraction, scale);
    if scale == 0 {
      assert FractionValue("0") == (0.0 + FractionValue("")) / 10.0;
      assert fraction == 0;
    } else {
      var t := NatToString(fraction);
      NatToStringLength(fraction, scale);
      NatToStringValue(fraction);
      PadLeftValue(t, scale);
      FractionValueShifted(f);
    }
  }

  /** Reading fraction digits left to right agrees with shifting their integer value. */
  lemma {:induction false} FractionValueShifted(s: string)
    requires AllDigits(s)
    ensures FractionValue(s) == Shifted(DigitsValue(s), |s|)
  {
    if |s| > 0 {
      var t := s[1..];
      var c := DigitValue(s[0]);
      FractionValueShifted(t);
      assert s == [s[0]] + t;
      DigitsValueCons(s[0], t);
      ShiftedWhole(c, DigitsValue(t), |t|);
    }
  }

  /** A leading digit contributes its value times `10^|t|`. */
  lemma {:induction false} DigitsValueCons(c: char, t: string)
    requires IsDigit(c) && AllDigits(t)
    ensures AllDigits([c] + t)
    ensures DigitsValue([c] + t) == DigitValue(c) * Pow10(|t|) + DigitsValue(t)
  {
    var s := [c] + t;
    if |t| > 0 {
      var u := t[..|t| - 1];
      assert s[..|s| - 1] == [c] + u;
      DigitsValueCons(c, u);
      var p := Pow10(|u|);
      assert Pow10(|t|) == 10 * p;
      assert DigitValue(c) * (10 * p) == (DigitValue(c) * p) * 10;
    } else {
      assert s[..0] == [];
    }
  }

  /** Shifting `a * 10^k + n` by `k` places leaves `a` in front of the point. */
  lemma {:induction false} ShiftedWhole(a: nat, n: nat, k: nat)
    ensures Shifted(a * Pow10(k) + n, k) == a as real + Shifted(n, k)
    decreases k
  {
    if k > 0 {
      var p := Pow10(k - 1);
      assert a * Pow10(k) == (10 * a) * p;
      ShiftedWhole(10 * a, n, k - 1);
    }
  }

  /** A sign before an unsigned numeral negates its value or leaves it. */
  lemma SignedFloat(negative: bool, body: string, v: real, text: string)
    requires ParseUnsignedFloat(body) == Some(v)
    requires |body| >= 1 && IsDigit(body[0])
    requires text == SignText(negative) + body
    ensures ParseFloat(text) == Some(if negative then -v else v)
  {
    SplitSignText(negative, body);
  }

  /** A sign written before text that starts with a digit is the one `SplitSign` separates. */
  lemma SplitSignText(negative: bool, body: string)
    requires |body| >= 1 && IsDigit(body[0])
    ensures SplitSign(SignText(negative) + body) == (negative, body)
  {
    var s := SignText(negative) + body;
    if negative {
      assert s[1..] == body;
    } else {
      assert s == body;
    }
  }

  /** Text made of digits and dots has no exponent: the whole of it is the mantissa. */
  lemma NoExponent(body: string)
    requires forall j :: 0 <= j < |body| ==> IsDigit(body[j]) || body[j] == '.'
    ensures ParseUnsignedFloat(body) == ParseMantissa(body)
  {
    FindAt(body, {'e', 'E'}, |body|);
    assert body[..|body|] == body;
  }

  /** `w.f` splits at its dot into the whole digits `w` and the fraction digits `f`. */
  lemma MantissaAtDot(w: string, f: string)
    requires |w| >= 1 && AllDigits(w) && AllDigits(f)
    ensures ParseMantissa(PositionalText(w, f)) == Some(PositionalValue(w, f))
  {
    var body := PositionalText(w, f);
    assert body[|w|] == '.';
    assert forall j :: 0 <= j < |w| ==> body[j] == w[j];
    FindAt(body, {'.'}, |w|);
    assert body[..|w|] == w;
    assert body[|w| + 1..] == f;
  }

  lemma MantissaWithoutExponent(w: string, f: string)
    requires |w| >= 1 && AllDigits(w) && AllDigits(f)
    ensures ParseUnsignedFloat(PositionalText(w, f)) == Some(PositionalValue(w, f))
    ensures PositionalText(w, f)[0] == w[0]
  {
    var body := PositionalText(w, f);
    forall j | 0 <= j < |body|
      ensures IsDigit(body[j]) || body[j] == '.'
    {
      if j < |w| {
        assert body[j] == w[j];
      } else if j > |w| {
        assert body[j] == f[j - |w| - 1];
      }
    }
    NoExponent(body);
    MantissaAtDot(w, f);
  }

  /** The digits `FormatDecimal` writes for a decimal denote its magnitude. */
  lemma FormattedDigits(d: Decimal)
    requires d.Valid()
    ensures var w := NatToString(d.whole);
            var f := FractionText(d.fraction, d.scale);
            && AllDigits(f)
            && PositionalValue(w, f) == d.whole as real + Shifted(d.fraction, d.scale)
  {
    FractionTextValue(d.fraction, d.scale);
    NatToStringValue(d.whole);
  }

  /** `float()` reads a signed positional numeral `w.f` as whole part plus fraction. */
  lemma PositionalRoundTrip(negative: bool, w: string, f: string, text: string, value: real)
    requires |w| >= 1 && AllDigits(w) && AllDigits(f)
    requires text == SignText(negative) + PositionalText(w, f)
    requires value == if negative then -PositionalValue(w, f) else PositionalValue(w, f)
    ensures ParseFloat(text) == Some(value)
  {
    MantissaWithoutExponent(w, f);
    if negative {
      SignedFloat(true, PositionalText(w, f), PositionalValue(w, f), text);
    } else {
      SignedFloat(false, PositionalText(w, f), PositionalValue(w, f), text);
    }
  }

  /** A decimal written in positional form is read back by `float()` as its value. */
  lemma ParseFloatRoundTrip(d: Decimal)
    requires d.Valid()
    ensures ParseFloat(FormatDecimal(d)) == Some(d.Value())
  {
    FormattedDigits(d);
    PositionalRoundTrip(d.negative, NatToString(d.whole), FractionText(d.fraction, d.scale),
                        FormatDecimal(d), d.Value());
  }

  /** Text `m`, `e`, then an integer splits at the `e` into the mantissa and that exponent. */
  lemma ExponentSplit(m: string, k: int)
    requires forall j :: 0 <= j < |m| ==> IsDigit(m[j]) || m[j] == '.'
    requires ParseMantissa(m).Some?
    ensures ParseUnsignedFloat(m + "e" + IntToString(k)) == Some(ScaleBy(ParseMantissa(m).value, k))
  {
    var body := m + "e" + IntToString(k);
    assert forall j :: 0 <= j < |m| ==> body[j] == m[j];
    FindAt(body, {'e', 'E'}, |m|);
    assert body[..|m|] == m;
    assert body[|m| + 1..] == IntToString(k);
    ParseIntRoundTrip(k);
  }

  /** `float()` of a mantissa, `e` and an integer is the mantissa's value scaled by that exponent. */
  lemma ExponentParsed(m: string, k: int, v: real, text: string)
    requires |m| >= 1 && IsDigit(m[0])
    requires forall j :: 0 <= j < |m| ==> IsDigit(m[j]) || m[j] == '.'
    requires ParseMantissa(m) == Some(v)
    requires text == m + "e" + IntToString(k)
    ensures ParseFloat(text) == Some(ScaleBy(v, k))
  {
    ExponentSplit(m, k);
    assert text[0] == m[0];
    assert SignText(false) + text == text;
    SignedFloat(false, text, ScaleBy(v, k), text);
  }

  /**
   * An exponent scales the mantissa by a power of ten: `float("w.fe<k>")` is the
   * value of `w.f` times `10^k`, or divided by `10^-k` when `k` is negative.
   */
  lemma ExponentScales(m: string, k: int, v: real, text: string)
    requires |m| >= 1 && IsDigit(m[0])
    requires forall j :: 0 <= j < |m| ==> IsDigit(m[j]) || m[j] == '.'
    requires ParseMantissa(m) == Some(v)
    requires text == m + "e" + IntToString(k)
    ensures ParseFloat(text) == Some(if k >= 0 then v * Pow10(k) as real else v / Pow10(-k) as real)
  {
    assert ParseFloat(text) == Some(ScaleBy(v, k)) by {
      ExponentParsed(m, k, v, text);
    }
    ScaleByPower(v, k);
  }

  /** A run of digits without a dot is all whole part. */
  lemma MantissaOfDigits(s: string)
    requires |s| >= 1 && AllDigits(s)
    ensures ParseMantissa(s) == Some(DigitsValue(s) as real)
  {
    assert forall j :: 0 <= j < |s| ==> s[j] != '.';
    FindAt(s, {'.'}, |s|);
    assert s[..|s|] == s;
    assert PositionalValue(s, "") == DigitsValue(s) as real + FractionValue("");
  }

  /** Integer text made only of digits is also a float numeral with the same value. */
  lemma ParseFloatOfDigits(s: string)
    requires |s| >= 1 && AllDigits(s)
    ensures ParseFloat(s) == Some(DigitsValue(s) as real)
  {
    NoExponent(s);
    MantissaOfDigits(s);
    assert SplitSign(s) == (false, s);
  }

  /** The characters of a formatted decimal or integer are digits, `-` and `.`, never the field separator. */
  lemma FormattedTextHasNoColon(d: Decimal, n: int)
    requires d.Valid()
    ensures ':' !in FormatDecimal(d)
    ensures ':' !in IntToString(n)
  {
  }
}

=== FILE: server.dfy ===
/**
 * `beacon_position_handler` without the HTTP layer: select the beacon's latest
 * detections, turn them into receiver positions and time differences relative to the
 * first detection, localize, and report the estimate with one entry per receiver.
 */
module Server {
  import opened Wrappers
  import opened Database
  import opened Tdoa
  import opened Doubles

  /** Nanoseconds per second: arrival times are integer nanoseconds, the solver works in seconds. */
  const NanosPerSecond: real := 1000000000.0

  /** One receiver in the response, with its arrival time relative to the first detection in nanoseconds. */
  datatype DroneItem = DroneItem(lat: real, lon: real, droneId: string, tdoa: int)

  datatype BeaconPositionResponse = BeaconPositionResponse(beacon: LatLon, drones: seq<DroneItem>)

  datatype HandlerError =
    | NoDetections                    // `times[0]` of an empty array raises `IndexError`
    | Localization(error: TdoaError)  // the solver input was rejected

  /** `[[d.receiver_lat, d.receiver_lon] for d in detections]`. */
  function ReceiverPositions(detections: seq<Detection>): (r: seq<LatLon>)
    ensures |r| == |detections|
    ensures forall i :: 0 <= i < |detections| ==>
              r[i] == LatLon(detections[i].receiverLat, detections[i].receiverLon)
  {
    seq(|detections|, i requires 0 <= i < |detections| =>
      LatLon(detections[i].receiverLat, detections[i].receiverLon))
  }

  /** `d.toa * 0.1**9`: arrival times in seconds, computed exactly. */
  function ArrivalSeconds(detections: seq<Detection>): (r: seq<real>)
    ensures |r| == |detections|
    ensures forall i :: 0 <= i < |detections| ==> r[i] * NanosPerSecond == detections[i].toa as real
  {
    seq(|detections|, i requires 0 <= i < |detections| => detections[i].toa as real / NanosPerSecond)
  }

  /**
   * `d.toa * 0.1**9` in floating point: each `toa` becomes the nearest double before
   * it is scaled, and `scale` stands for the rounded product, however it rounds.
   * Arrival times that convert to the same double become the same time.
   */
  function ArrivalSecondsAsWritten(detections: seq<Detection>, scale: real -> real): (r: seq<real>)
    ensures |r| == |detections|
    ensures forall i, j ::
              (0 <= i < |detections| && 0 <= j < |detections| && ToDouble(detections[i].toa) == ToDouble(detections[j].toa))
              ==> r[i] == r[j]
  {
    seq(|detections|, i requires 0 <= i < |detections| => scale(ToDouble(detections[i].toa)))
  }

  /** `times[1:] - times[0]`; indexing the first time of no detections fails. */
  function TimeDifferences(times: seq<real>): (r: Result<seq<real>, HandlerError>)
    ensures r.Failure? <==> |times| == 0
    ensures r.Failure? ==> r.error == NoDetections
    ensures r.Success? ==> |r.value| == |times| - 1
    ensures r.Success? ==> forall i :: 0 <= i < |times| - 1 ==> r.value[i] == times[i + 1] - times[0]
  {
    if |times| == 0 then Failure(NoDetections)
    else Success(seq(|times| - 1, i requires 0 <= i < |times| - 1 => times[i + 1] - times[0]))
  }

  /** Python's `int()` of a float: truncation toward zero. */
  function Truncate(x: real): (n: int)
    ensures x >= 0.0 ==> n as real <= x < n as real + 1.0
    ensures x < 0.0 ==> n as real - 1.0 < x <= n as real
  {
    if x >= 0.0 then x.Floor else -((-x).Floor)
  }

  /**
   * The response's drone list: one entry per detection, in order, with
   * `tdoa = int(10**9 * (times[n] - times[0]))`, which is whole nanoseconds.
   */
  function Drones(detections: seq<Detection>): (r: seq<DroneItem>)
    ensures |r| == |detections|
    ensures forall n :: 0 <= n < |detections| ==>
              && r[n].droneId == detections[n].receiverId
              && r[n].lat == detections[n].receiverLat
              && r[n].lon == detections[n].receiverLon
              && r[n].tdoa == detections[n].toa - detections[0].toa
  {
    var times := ArrivalSeconds(detections);
    seq(|detections|, n requires 0 <= n < |detections| =>
      assert NanosPerSecond * (times[n] - times[0]) == (detections[n].toa - detections[0].toa) as real;
      DroneItem(
        lat := detections[n].receiverLat,
        lon := detections[n].receiverLon,
        droneId := detections[n].receiverId,
        tdoa := Truncate(NanosPerSecond * (times[n] - times[0]))))
  }

  /**
   * The handler's work once the detections are selected. No detections fail at
   * `times[0]`; one or two leave the solver fewer residuals than unknowns.
   */
  function BeaconPosition(lib: Numerics, detections: seq<Detection>): (r: Result<BeaconPositionResponse, HandlerError>)
    ensures r.Failure? <==> |detections| <= Unknowns
    ensures |detections| == 0 ==> r == Failure(NoDetections)
    ensures 0 < |detections| <= Unknowns ==> r == Failure(Localization(TooFewResiduals(|detections| - 1, Unknowns)))
    ensures r.Success? ==>
              && Localize(lib, ReceiverPositions(detections), TimeDifferences(ArrivalSeconds(detections)).value,
                          SpeedOfLight, None) == Success(r.value.beacon)
              && |r.value.drones| == |detections|
              && forall n :: 0 <= n < |detections| ==>
                   && r.value.drones[n].droneId == detections[n].receiverId
                   && r.value.drones[n].lat == detections[n].receiverLat
                   && r.value.drones[n].lon == detections[n].receiverLon
                   && r.value.drones[n].tdoa == detections[n].toa - detections[0].toa
  {
    var times := ArrivalSeconds(detections);
    var tdoa :- TimeDifferences(times);
    match Localize(lib, ReceiverPositions(detections), tdoa, SpeedOfLight, None)
    case Failure(e) => Failure(Localization(e))
    case Success(estimated) =>
      Success(BeaconPositionResponse(
        beacon := LatLon(estimated.lat, estimated.lon),
        drones := Drones(detections)))
  }

  /** `beacon_position_handler(beacon_id)` over the table's current rows. */
  function BeaconPositionHandler(lib: Numerics, table: Table, beacon: string): (r: Result<BeaconPositionResponse, HandlerError>)
    ensures r.Failure? <==> forall t :: !Qualifies(table, beacon, t)
    ensures r.Success? ==>
              var rows := FilterLastDetections(table, beacon);
              && IsLatestSlot(table, beacon, rows[0].tos)
              && |ReceiverIds(rows)| >= MinReceivers
              && Localize(lib, ReceiverPositions(rows), TimeDifferences(ArrivalSeconds(rows)).value,
                          SpeedOfLight, None) == Success(r.value.beacon)
              && |r.value.drones| == |rows|
              && forall n :: 0 <= n < |rows| ==>
                   && rows[n].beaconId == beacon
                   && rows[n].tos == rows[0].tos
                   && r.value.drones[n].droneId == rows[n].receiverId
                   && r.value.drones[n].lat == rows[n].receiverLat
                   && r.value.drones[n].lon == rows[n].receiverLon
                   && r.value.drones[n].tdoa == rows[n].toa - rows[0].toa
  {
    BeaconPosition(lib, FilterLastDetections(table, beacon))
  }

  /**
   * The time differences handed to the solver and the `tdoa` reported per drone
   * describe the same nanosecond differences, and each `delta_d` is the distance
   * light travels in that time.
   */
  lemma ReportedDifferencesMatchSolverInput(lib: Numerics, detections: seq<Detection>)
    requires |detections| > 0
    ensures var diffs := TimeDifferences(ArrivalSeconds(detections)).value;
            var drones := Drones(detections);
            var p := Setup(lib, ReceiverPositions(detections), diffs, SpeedOfLight, None).value;
            && |diffs| == |detections| - 1
            && drones[0].tdoa == 0
            && forall i :: 0 <= i < |diffs| ==>
                 && drones[i + 1].tdoa as real == NanosPerSecond * diffs[i]
                 && p.model.deltaD[i] * NanosPerSecond == SpeedOfLight * drones[i + 1].tdoa as real
  {
  }

  /**
   * When the solver lands on the projection of `source` and the inverse projection
   * undoes the forward one there, the handler reports `source` as the beacon's position.
   */
  lemma HandlerRecoversSource(lib: Numerics, table: Table, beacon: string, source: LatLon)
    ensures var rows := FilterLastDetections(table, beacon);
            rows != [] ==>
              var p := Setup(lib, ReceiverPositions(rows), TimeDifferences(ArrivalSeconds(rows)).value,
                             SpeedOfLight, None).value;
              var projected := lib.forward(p.frame, source.lon, source.lat);
              lib.inverse(p.frame, projected) == (source.lon, source.lat) && lib.leastSquares(p.model, p.initial) == projected
              ==> var r := BeaconPositionHandler(lib, table, beacon);
                  r.Success? && r.value.beacon == source
  {
  }

  /**
   * Epoch nanoseconds (about 1.7e18) lie between 2^60 and 2^61, where doubles are 256 ns
   * apart: 1700000000000000000 is one of them, and 128 ns later is a tie that rounds
   * back to it.
   */
  lemma EpochNanosecondsCollide()
    ensures ToDouble(1700000000000000000) == ToDouble(1700000000000000128) == 1700000000000000000 as real
  {
    var t := 1700000000000000000;
    Pow2Values();
    SpacingAt(t, 8);
    SpacingAt(t + 128, 8);
    assert t % 256 == 0 && (t + 128) % 256 == 128 && (t + 128) / 256 == 6640625000000000;
    assert RoundNat(t) == t;
    assert RoundNat(t + 128) == t;
  }

  /**
   * Two arrivals 128 ns apart at epoch-nanosecond magnitudes convert to the same double,
   * so the handler's time difference and reported `tdoa` are zero, while the exact drone
   * list reports 128.
   */
  lemma RoundedArrivalsLoseNanoseconds(scale: real -> real, first: Detection, second: Detection)
    requires first.toa == 1700000000000000000 && second.toa == first.toa + 128
    ensures var times := ArrivalSecondsAsWritten([first, second], scale);
            && times[1] - times[0] == 0.0
            && Truncate(NanosPerSecond * (times[1] - times[0])) == 0
            && Drones([first, second])[1].tdoa == 128
  {
    var times := ArrivalSecondsAsWritten([first, second], scale);
    assert ToDouble(first.toa) == ToDouble(second.toa) by {
      EpochNanosecondsCollide();
    }
    assert times[1] - times[0] == 0.0;
    assert Truncate(NanosPerSecond * 0.0) == 0;
  }
}

=== FILE: subscriber.dfy ===
/**
 * `on_message`: a `receiver:lat:lon:beacon:tos:toa` payload is split on `:`, its first
 * six fields are coerced onto a detection record, and the record is saved. The
 * encoder is the publisher's format string, so the two can be composed.
 */
module Subscriber {
  import opened Wrappers
  import opened Text
  import opened Numerals
  import opened Database

  const Separator: char := ':'

  /** Number of names the split payload is unpacked into; fields after these are ignored. */
  const FieldCount: nat := 6

  datatype DecodeError =
    | TooFewFields(found: nat)   // unpacking the split payload into six names fails
    | NotAFloat(field: string)   // a coordinate the record's `float` field rejects
    | NotAnInt(field: string)    // a time the record's `int` field rejects

  /**
   * The record built from a payload, or why none is. `savedAt` stands for the wall
   * clock read when the message arrives.
   */
  function Decode(payload: string, savedAt: int): (r: Result<Detection, DecodeError>)
    ensures var fields := Split(payload, Separator);
            |fields| < FieldCount ==> r == Failure(TooFewFields(|fields|))
    ensures var fields := Split(payload, Separator);
            r.Success? ==>
              && |fields| >= FieldCount
              && r.value.receiverId == fields[0]
              && ParseFloat(fields[1]) == Some(r.value.receiverLat)
              && ParseFloat(fields[2]) == Some(r.value.receiverLon)
              && r.value.beaconId == fields[3]
              && ParseInt(fields[4]) == Some(r.value.tos)
              && ParseInt(fields[5]) == Some(r.value.toa)
              && r.value.savedAt == savedAt
    ensures var fields := Split(payload, Separator);
            |fields| >= FieldCount ==>
              (r.Failure? <==> ParseFloat(fields[1]).None? || ParseFloat(fields[2]).None?
                               || ParseInt(fields[4]).None? || ParseInt(fields[5]).None?)
  {
    var fields := Split(payload, Separator);
    if |fields| < FieldCount then Failure(TooFewFields(|fields|))
    else
      var receiverId, lat, lon, beaconId, tos, toa := fields[0], fields[1], fields[2], fields[3], fields[4], fields[5];
      match (ParseFloat(lat), ParseFloat(lon), ParseInt(toa), ParseInt(tos))
      case (None, _, _, _) => Failure(NotAFloat(lat))
      case (_, None, _, _) => Failure(NotAFloat(lon))
      case (_, _, None, _) => Failure(NotAnInt(toa))
      case (_, _, _, None) => Failure(NotAnInt(tos))
      case (Some(latValue), Some(lonValue), Some(toaValue), Some(tosValue)) =>
        Success(Detection(
          beaconId := beaconId,
          savedAt := savedAt,
          receiverId := receiverId,
          receiverLat := latValue,
          receiverLon := lonValue,
          toa := toaValue,
          tos := tosValue))
  }

  /** `on_message`: the table after one message; a message that does not decode saves nothing. */
  function OnMessage(table: Table, payload: string, savedAt: int): (t: Table)
    ensures Decode(payload, savedAt).Success? ==>
              |t| == |table| + 1 && t[..|table|] == table && t[|table|] == Decode(payload, savedAt).value
    ensures Decode(payload, savedAt).Failure? ==> t == table
  {
    match Decode(payload, savedAt)
    case Success(d) => Save(table, d)
    case Failure(_) => table
  }

  /** The publisher's payload `f"{receiver}:{lat}:{lon}:{beacon}:{tos}:{toa}"`. */
  function Encode(receiverId: string, lat: Decimal, lon: Decimal, beaconId: string, tos: int, toa: int): string
    requires lat.Valid() && lon.Valid()
  {
    Join([receiverId, FormatDecimal(lat), FormatDecimal(lon), beaconId, IntToString(tos), IntToString(toa)], Separator)
  }

  /** Decoding what the publisher encodes gives back every field, provided the ids hold no `:`. */
  lemma DecodeEncode(receiverId: string, lat: Decimal, lon: Decimal, beaconId: string, tos: int, toa: int, savedAt: int)
    requires lat.Valid() && lon.Valid()
    requires Separator !in receiverId && Separator !in beaconId
    ensures Decode(Encode(receiverId, lat, lon, beaconId, tos, toa), savedAt)
            == Success(Detection(beaconId, savedAt, receiverId, lat.Value(), lon.Value(), toa, tos))
  {
    var fields := [receiverId, FormatDecimal(lat), FormatDecimal(lon), beaconId, IntToString(tos), IntToString(toa)];
    FormattedTextHasNoColon(lat, tos);
    FormattedTextHasNoColon(lon, toa);
    SplitJoin(fields, Separator);
    ParseFloatRoundTrip(lat);
    ParseFloatRoundTrip(lon);
    ParseIntRoundTrip(tos);
    ParseIntRoundTrip(toa);
  }

  /** Fields after the sixth do not affect the decoded record. */
  lemma ExtraFieldsIgnored(fields: seq<string>, extra: seq<string>, savedAt: int)
    requires |fields| == FieldCount
    requires forall k :: 0 <= k < |fields| ==> Separator !in fields[k]
    requires forall k :: 0 <= k < |extra| ==> Separator !in extra[k]
    ensures Decode(Join(fields + extra, Separator), savedAt) == Decode(Join(fields, Separator), savedAt)
  {
    SplitJoin(fields, Separator);
    SplitJoin(fields + extra, Separator);
  }

  /** A payload with fewer than five separators cannot be unpacked, so nothing is saved. */
  lemma TooFewSeparatorsSavesNothing(table: Table, payload: string, savedAt: int)
    requires Count(payload, Separator) < FieldCount - 1
    ensures Decode(payload, savedAt) == Failure(TooFewFields(Count(payload, Separator) + 1))
    ensures OnMessage(table, payload, savedAt) == table
  {
    SplitFieldCount(payload, Separator);
  }
}

=== FILE: tdoa.dfy ===
/**
 * `tdoa_localization_geodetic`: receivers are projected into an azimuthal-equidistant
 * frame centred on their mean latitude and longitude, time differences become range
 * differences, a least-squares solver minimises the residuals of the hyperbolic model
 * with receiver 0 as reference, and the planar estimate is projected back.
 *
 * The projection, the Euclidean norm and the solver belong to libraries; they are the
 * fields of `Numerics` and are left abstract.
 */
module Tdoa {
  import opened Wrappers

  /** Default `signal_speed`: the speed of light in metres per second. */
  const SpeedOfLight: real := 299792458.0

  datatype LatLon = LatLon(lat: real, lon: real) {
    predicate Valid() {
      -90.0 <= lat <= 90.0 && -180.0 <= lon <= 180.0
    }
  }

  /** A point of the local frame in metres. */
  datatype Planar = Planar(x: real, y: real) {
    function Minus(o: Planar): Planar {
      Planar(x - o.x, y - o.y)
    }
  }

  /** The local `aeqd` frame centred on `origin` (`x_0 = y_0 = 0`, metres). */
  datatype Frame = Frame(origin: LatLon)

  /**
   * What the residual closure captures: the projected receivers, receiver 0 being
   * the reference, the range differences of the others, and the norm it measures with.
   */
  datatype ResidualModel = ResidualModel(norm: Planar -> real, positions: seq<Planar>, deltaD: seq<real>) {
    predicate Valid() {
      |positions| >= 1 && |deltaD| == |positions| - 1
    }

    /** `di - d0`: how much farther `pos` is from receiver `i` than from the reference. */
    function RangeDifference(pos: Planar, i: nat): real
      requires i < |positions|
    {
      norm(pos.Minus(positions[i])) - norm(pos.Minus(positions[0]))
    }
  }

  /**
   * The library calls, left abstract:
   * `forward(frame, lon, lat)` is `transformer.transform(lon, lat)` (x first: `always_xy`);
   * `inverse(frame, p)` is the inverse transform, giving `(lon, lat)`;
   * `norm` is `np.linalg.norm` of a planar vector;
   * `leastSquares(model, start)` is `least_squares(residuals, start, method='lm').x`.
   */
  datatype Numerics = Numerics(
    forward: (Frame, real, real) -> Planar,
    inverse: (Frame, Planar) -> (real, real),
    norm: Planar -> real,
    leastSquares: (ResidualModel, Planar) -> Planar)

  /** Unknowns of the planar solve: the estimate's `x` and `y`. */
  const Unknowns: nat := 2

  /** The two `ValueError`s the function can raise before the solver iterates. */
  datatype TdoaError =
    | LengthMismatch(receivers: nat, differences: nat)  // the time differences do not number one fewer than the receivers
    | TooFewResiduals(residuals: nat, unknowns: nat)    // `least_squares(..., method='lm')` refuses fewer residuals than unknowns

  /** Everything handed to the solver, and the frame its answer is read in. */
  datatype Problem = Problem(frame: Frame, model: ResidualModel, initial: Planar)

  function Sum(s: seq<real>): real
  {
    if |s| == 0 then 0.0 else s[0] + Sum(s[1..])
  }

  /** `np.mean`. */
  function Mean(s: seq<real>): real
    requires |s| > 0
  {
    Sum(s) / |s| as real
  }

  function Lats(points: seq<LatLon>): (r: seq<real>)
    ensures |r| == |points| && forall i :: 0 <= i < |points| ==> r[i] == points[i].lat
  {
    seq(|points|, i requires 0 <= i < |points| => points[i].lat)
  }

  function Lons(points: seq<LatLon>): (r: seq<real>)
    ensures |r| == |points| && forall i :: 0 <= i < |points| ==> r[i] == points[i].lon
  {
    seq(|points|, i requires 0 <= i < |points| => points[i].lon)
  }

  function Xs(points: seq<Planar>): (r: seq<real>)
    ensures |r| == |points| && forall i :: 0 <= i < |points| ==> r[i] == points[i].x
  {
    seq(|points|, i requires 0 <= i < |points| => points[i].x)
  }

  function Ys(points: seq<Planar>): (r: seq<real>)
    ensures |r| == |points| && forall i :: 0 <= i < |points| ==> r[i] == points[i].y
  {
    seq(|points|, i requires 0 <= i < |points| => points[i].y)
  }

  /** The projection origin: the arithmetic mean of latitudes and of longitudes (not a geodesic centroid). */
  function Origin(receivers: seq<LatLon>): LatLon
    requires |receivers| > 0
  {
    LatLon(Mean(Lats(receivers)), Mean(Lons(receivers)))
  }

  /** Each receiver projected into the frame, in input order, passing `(lon, lat)`. */
  function Project(lib: Numerics, frame: Frame, receivers: seq<LatLon>): (r: seq<Planar>)
    ensures |r| == |receivers|
    ensures forall i :: 0 <= i < |receivers| ==> r[i] == lib.forward(frame, receivers[i].lon, receivers[i].lat)
  {
    seq(|receivers|, i requires 0 <= i < |receivers| => lib.forward(frame, receivers[i].lon, receivers[i].lat))
  }

  /** The solver's start: the projected guess when one is given, else the mean of the projected receivers. */
  function InitialGuess(lib: Numerics, frame: Frame, positions: seq<Planar>, guess: Option<LatLon>): Planar
    requires |positions| > 0
  {
    match guess
    case Some(g) => lib.forward(frame, g.lon, g.lat)
    case None => Planar(Mean(Xs(positions)), Mean(Ys(positions)))
  }

  /** `delta_d = signal_speed * time_differences`. */
  function RangeDifferences(speed: real, timeDiffs: seq<real>): (r: seq<real>)
    ensures |r| == |timeDiffs|
    ensures forall i :: 0 <= i < |timeDiffs| ==> r[i] == speed * timeDiffs[i]
  {
    seq(|timeDiffs|, i requires 0 <= i < |timeDiffs| => speed * timeDiffs[i])
  }

  /**
   * The errors the residual loop has appended after handling receivers `1 .. n-1`:
   * one per non-reference receiver, predicted range difference minus measured.
   */
  function Errors(m: ResidualModel, pos: Planar, n: nat): (errors: seq<real>)
    requires m.Valid() && 1 <= n <= |m.positions|
    ensures |errors| == n - 1
    ensures forall k :: 0 <= k < n - 1 ==> errors[k] == m.RangeDifference(pos, k + 1) - m.deltaD[k]
  {
    if n == 1 then []
    else Errors(m, pos, n - 1) + [m.RangeDifference(pos, n - 1) - m.deltaD[n - 2]]
  }

  /** `residuals(pos)`. */
  function Residuals(m: ResidualModel, pos: Planar): (errors: seq<real>)
    requires m.Valid()
    ensures |errors| == |m.deltaD|
    ensures forall k :: 0 <= k < |m.deltaD| ==>
              errors[k] == m.norm(pos.Minus(m.positions[k + 1])) - m.norm(pos.Minus(m.positions[0])) - m.deltaD[k]
  {
    Errors(m, pos, |m.positions|)
  }

  function Squares(s: seq<real>): (r: seq<real>)
    ensures |r| == |s| && forall i :: 0 <= i < |s| ==> r[i] == s[i] * s[i]
  {
    seq(|s|, i requires 0 <= i < |s| => s[i] * s[i])
  }

  /** The least-squares objective: the sum of the squared residuals. */
  function SumOfSquares(s: seq<real>): real
  {
    Sum(Squares(s))
  }

  /** The length check, the frame, the projected receivers, `delta_d` and the start point. */
  function Setup(lib: Numerics, receivers: seq<LatLon>, timeDiffs: seq<real>, speed: real,
                 guess: Option<LatLon>): (r: Result<Problem, TdoaError>)
    ensures r.Failure? <==> |timeDiffs| != |receivers| - 1
    ensures r.Failure? ==> r.error == LengthMismatch(|receivers|, |timeDiffs|)
    ensures r.Success? ==>
              var p := r.value;
              && p.model.Valid()
              && p.frame.origin == LatLon(Mean(Lats(receivers)), Mean(Lons(receivers)))
              && p.model.norm == lib.norm
              && p.model.positions == Project(lib, p.frame, receivers)
              && p.model.deltaD == RangeDifferences(speed, timeDiffs)
              && p.initial == InitialGuess(lib, p.frame, p.model.positions, guess)
  {
    if |timeDiffs| != |receivers| - 1 then Failure(LengthMismatch(|receivers|, |timeDiffs|))
    else
      var frame := Frame(Origin(receivers));
      var positions := Project(lib, frame, receivers);
      var model := ResidualModel(lib.norm, positions, RangeDifferences(speed, timeDiffs));
      Success(Problem(frame, model, InitialGuess(lib, frame, positions, guess)))
  }

  /**
   * `tdoa_localization_geodetic`: the solver's planar answer projected back; the
   * inverse projection yields `(lon, lat)` and the result is `[lat, lon]`. The solver
   * rejects a problem with fewer residuals than unknowns, that is, fewer than three
   * receivers, before it iterates.
   */
  function Localize(lib: Numerics, receivers: seq<LatLon>, timeDiffs: seq<real>, speed: real,
                    guess: Option<LatLon>): (r: Result<LatLon, TdoaError>)
    ensures r.Failure? <==> |timeDiffs| != |receivers| - 1 || |timeDiffs| < Unknowns
    ensures r.Failure? ==>
              r.error == if |timeDiffs| != |receivers| - 1 then LengthMismatch(|receivers|, |timeDiffs|)
                         else TooFewResiduals(|timeDiffs|, Unknowns)
    ensures r.Success? ==>
              var p := Setup(lib, receivers, timeDiffs, speed, guess).value;
              var lonLat := lib.inverse(p.frame, lib.leastSquares(p.model, p.initial));
              r.value.lat == lonLat.1 && r.value.lon == lonLat.0
  {
    var p :- Setup(lib, receivers, timeDiffs, speed, guess);
    if |p.model.deltaD| < Unknowns then Failure(TooFewResiduals(|p.model.deltaD|, Unknowns))
    else
      var estimated := lib.leastSquares(p.model, p.initial);
      var (lon, lat) := lib.inverse(p.frame, estimated);
      Success(LatLon(lat, lon))
  }

  /** A sum of terms between `lo` and `hi` lies between `n * lo` and `n * hi`. */
  lemma {:induction false} SumBounds(s: seq<real>, lo: real, hi: real)
    requires forall i :: 0 <= i < |s| ==> lo <= s[i] <= hi
    ensures |s| as real * lo <= Sum(s) <= |s| as real * hi
  {
    if |s| > 0 {
      SumBounds(s[1..], lo, hi);
      assert |s| as real * lo == (|s| - 1) as real * lo + lo;
      assert |s| as real * hi == (|s| - 1) as real * hi + hi;
    }
  }

  /** The mean of values between `lo` and `hi` lies between them. */
  lemma MeanWithin(s: seq<real>, lo: real, hi: real)
    requires |s| > 0
    requires forall i :: 0 <= i < |s| ==> lo <= s[i] <= hi
    ensures lo <= Mean(s) <= hi
  {
    SumBounds(s, lo, hi);
    var n := |s| as real;
    assert Mean(s) * n == Sum(s);
  }

  /** Receivers with valid coordinates give a valid projection origin. */
  lemma OriginValid(receivers: seq<LatLon>)
    requires |receivers| > 0
    requires forall i :: 0 <= i < |receivers| ==> receivers[i].Valid()
    ensures Origin(receivers).Valid()
  {
    MeanWithin(Lats(receivers), -90.0, 90.0);
    MeanWithin(Lons(receivers), -180.0, 180.0);
  }

  /** Without a guess, the solver starts inside the bounding box of the projected receivers. */
  lemma DefaultStartInsideReceivers(lib: Numerics, frame: Frame, positions: seq<Planar>, box: (Planar, Planar))
    requires |positions| > 0
    requires forall i :: 0 <= i < |positions| ==>
               box.0.x <= positions[i].x <= box.1.x && box.0.y <= positions[i].y <= box.1.y
    ensures var start := InitialGuess(lib, frame, positions, None);
            box.0.x <= start.x <= box.1.x && box.0.y <= start.y <= box.1.y
  {
    MeanWithin(Xs(positions), box.0.x, box.1.x);
    MeanWithin(Ys(positions), box.0.y, box.1.y);
  }

  lemma SumOfSquaresNonNegative(s: seq<real>)
    ensures SumOfSquares(s) >= 0.0
  {
    SumNonNegative(Squares(s));
  }

  lemma {:induction false} SumNonNegative(s: seq<real>)
    requires forall k :: 0 <= k < |s| ==> s[k] >= 0.0
    ensures Sum(s) >= 0.0
  {
    if |s| > 0 {
      SumNonNegative(s[1..]);
    }
  }

  lemma SumOfSquaresZero(s: seq<real>)
    requires forall k :: 0 <= k < |s| ==> s[k] == 0.0
    ensures SumOfSquares(s) == 0.0
  {
    SumBounds(Squares(s), 0.0, 0.0);
  }

  /** Every residual vanishes exactly when the candidate's range differences equal the measured ones. */
  lemma ResidualsVanish(m: ResidualModel, pos: Planar)
    requires m.Valid()
    ensures (forall k :: 0 <= k < |m.deltaD| ==> Residuals(m, pos)[k] == 0.0)
            <==> (forall i :: 1 <= i < |m.positions| ==> m.RangeDifference(pos, i) == m.deltaD[i - 1])
  {
    var r := Residuals(m, pos);
    if forall k :: 0 <= k < |m.deltaD| ==> r[k] == 0.0 {
      forall i | 1 <= i < |m.positions|
        ensures m.RangeDifference(pos, i) == m.deltaD[i - 1]
      {
        assert r[i - 1] == 0.0;
      }
    }
  }

  /**
   * Noise-free measurements: when the time differences are the range differences of a
   * source divided by the signal speed, the residuals at the projected source are all
   * zero, so it minimises the objective.
   */
  lemma ExactMeasurementsVanish(lib: Numerics, receivers: seq<LatLon>, timeDiffs: seq<real>, speed: real,
                                guess: Option<LatLon>, source: LatLon)
    requires speed != 0.0
    requires |timeDiffs| == |receivers| - 1
    requires var p := Setup(lib, receivers, timeDiffs, speed, guess).value;
             var s := lib.forward(p.frame, source.lon, source.lat);
             forall k :: 0 <= k < |timeDiffs| ==> timeDiffs[k] == p.model.RangeDifference(s, k + 1) / speed
    ensures var p := Setup(lib, receivers, timeDiffs, speed, guess).value;
            var s := lib.forward(p.frame, source.lon, source.lat);
            && (forall k :: 0 <= k < |timeDiffs| ==> Residuals(p.model, s)[k] == 0.0)
            && forall candidate :: SumOfSquares(Residuals(p.model, s)) <= SumOfSquares(Residuals(p.model, candidate))
  {
    var p := Setup(lib, receivers, timeDiffs, speed, guess).value;
    var s := lib.forward(p.frame, source.lon, source.lat);
    forall k | 0 <= k < |timeDiffs|
      ensures Residuals(p.model, s)[k] == 0.0
    {
      assert p.model.deltaD[k] == speed * (p.model.RangeDifference(s, k + 1) / speed);
    }
    SumOfSquaresZero(Residuals(p.model, s));
    forall candidate
      ensures SumOfSquares(Residuals(p.model, s)) <= SumOfSquares(Residuals(p.model, candidate))
    {
      SumOfSquaresNonNegative(Residuals(p.model, candidate));
    }
  }

  /**
   * The result is read back in the right order: if the projection round-trips at the
   * origin and the solver lands on the projected source, the source itself comes back.
   */
  lemma LocalizeRecoversSource(lib: Numerics, receivers: seq<LatLon>, timeDiffs: seq<real>, speed: real,
                               guess: Option<LatLon>, source: LatLon)
    requires |timeDiffs| == |receivers| - 1 && |timeDiffs| >= Unknowns
    requires var p := Setup(lib, receivers, timeDiffs, speed, guess).value;
             && lib.inverse(p.frame, lib.forward(p.frame, source.lon, source.lat)) == (source.lon, source.lat)
             && lib.leastSquares(p.model, p.initial) == lib.forward(p.frame, source.lon, source.lat)
    ensures Localize(lib, receivers, timeDiffs, speed, guess) == Success(source)
  {
  }

  /** `s` with entries `i` and `j` exchanged. */
  function Swap<T>(s: seq<T>, i: nat, j: nat): (r: seq<T>)
    requires i < |s| && j < |s|
    ensures |r| == |s| && r[i] == s[j] && r[j] == s[i]
    ensures forall k :: 0 <= k < |s| && k != i && k != j ==> r[k] == s[k]
  {
    s[i := s[j]][j := s[i]]
  }

  /** Replacing one entry changes the sum by the difference. */
  lemma {:induction false} SumUpdate(s: seq<real>, k: nat, x: real)
    requires k < |s|
    ensures Sum(s[k := x]) == Sum(s) - s[k] + x
  {
    if k == 0 {
      assert s[k := x][1..] == s[1..];
    } else {
      assert s[k := x][1..] == s[1..][k - 1 := x];
      SumUpdate(s[1..], k - 1, x);
    }
  }

  /** Exchanging two entries leaves the sum unchanged. */
  lemma {:induction false} SumSwap(s: seq<real>, i: nat, j: nat)
    requires i < j < |s|
    ensures Sum(Swap(s, i, j)) == Sum(s)
  {
    var t := Swap(s, i, j);
    if i == 0 {
      assert t[1..] == s[1..][j - 1 := s[0]];
      SumUpdate(s[1..], j - 1, s[0]);
    } else {
      assert t[1..] == Swap(s[1..], i - 1, j - 1);
      SumSwap(s[1..], i - 1, j - 1);
    }
  }

  /**
   * Reordering two non-reference receivers together with their time differences
   * reorders the residuals the same way and leaves the objective unchanged; since
   * every reordering is a sequence of such exchanges, the order of receivers 1..N-1
   * does not matter to the solver.
   */
  lemma ExchangeNonReference(m: ResidualModel, i: nat, j: nat, pos: Planar)
    requires m.Valid() && i < j < |m.deltaD|
    ensures var m' := ResidualModel(m.norm, Swap(m.positions, i + 1, j + 1), Swap(m.deltaD, i, j));
            && m'.Valid()
            && Residuals(m', pos) == Swap(Residuals(m, pos), i, j)
            && SumOfSquares(Residuals(m', pos)) == SumOfSquares(Residuals(m, pos))
  {
    var m' := ResidualModel(m.norm, Swap(m.positions, i + 1, j + 1), Swap(m.deltaD, i, j));
    var r := Residuals(m, pos);
    assert Residuals(m', pos) == Swap(r, i, j);
    assert Squares(Swap(r, i, j)) == Swap(Squares(r), i, j) by {
      var lhs, rhs := Squares(Swap(r, i, j)), Swap(Squares(r), i, j);
      assert forall k :: 0 <= k < |r| ==> lhs[k] == rhs[k];
    }
    SumSwap(Squares(r), i, j);
  }
}

=== FILE: text.dfy ===
/** Character search, and Python's `str.split` / `str.join` for a one-character separator. */
module Text {

  /** Index of the first character of `s` that lies in `cs`, or `|s|` when there is none. */
  function Find(s: string, cs: set<char>): (i: nat)
    ensures i <= |s|
    ensures i < |s| ==> s[i] in cs
  {
    if |s| == 0 then 0
    else if s[0] in cs then 0
    else 1 + Find(s[1..], cs)
  }

  /** Number of occurrences of `c` in `s`. */
  function Count(s: string, c: char): nat
  {
    if |s| == 0 then 0
    else (if s[0] == c then 1 else 0) + Count(s[1..], c)
  }

  /** `s.split(sep)`: the pieces between separators, in order; an empty string gives one empty piece. */
  function Split(s: string, sep: char): (fields: seq<string>)
    ensures |fields| >= 1
    decreases |s|
  {
    var i := Find(s, {sep});
    if i == |s| then [s]
    else [s[..i]] + Split(s[i + 1..], sep)
  }

  /** `sep.join(fields)`. */
  function Join(fields: seq<string>, sep: char): string
  {
    if |fields| == 0 then ""
    else if |fields| == 1 then fields[0]
    else fields[0] + [sep] + Join(fields[1..], sep)
  }

  /** No character before the one `Find` returns lies in `cs`. */
  lemma {:induction false} FindFirst(s: string, cs: set<char>)
    ensures forall j :: 0 <= j < Find(s, cs) ==> s[j] !in cs
  {
    if |s| > 0 && s[0] !in cs {
      FindFirst(s[1..], cs);
      forall j | 1 <= j < Find(s, cs)
        ensures s[j] !in cs
      {
        assert s[j] == s[1..][j - 1];
      }
    }
  }

  /** `Find` returns exactly the first position in `cs`, or `|s|`. */
  lemma FindAt(s: string, cs: set<char>, k: nat)
    requires k <= |s| && (k < |s| ==> s[k] in cs)
    requires forall j :: 0 <= j < k ==> s[j] !in cs
    ensures Find(s, cs) == k
  {
    FindFirst(s, cs);
  }

  lemma {:induction false} CountAppend(a: string, b: string, c: char)
    ensures Count(a + b, c) == Count(a, c) + Count(b, c)
  {
    if |a| > 0 {
      assert (a + b)[1..] == a[1..] + b;
      CountAppend(a[1..], b, c);
    } else {
      assert a + b == b;
    }
  }

  lemma {:induction false} CountAbsent(s: string, c: char)
    requires forall j :: 0 <= j < |s| ==> s[j] != c
    ensures Count(s, c) == 0
  {
    if |s| > 0 {
      CountAbsent(s[1..], c);
    }
  }

  /** Splitting yields one more field than there are separators. */
  lemma {:induction false} SplitFieldCount(s: string, sep: char)
    ensures |Split(s, sep)| == Count(s, sep) + 1
    decreases |s|
  {
    var i := Find(s, {sep});
    FindFirst(s, {sep});
    if i == |s| {
      CountAbsent(s, sep);
    } else {
      assert s == s[..i] + ([s[i]] + s[i + 1..]);
      CountAbsent(s[..i], sep);
      CountAppend(s[..i], [s[i]] + s[i + 1..], sep);
      CountAppend([s[i]], s[i + 1..], sep);
      SplitFieldCount(s[i + 1..], sep);
    }
  }

  /** Joining the pieces of a split restores the string. */
  lemma {:induction false} JoinSplit(s: string, sep: char)
    ensures Join(Split(s, sep), sep) == s
    decreases |s|
  {
    var i := Find(s, {sep});
    if i < |s| {
      var rest := Split(s[i + 1..], sep);
      assert Split(s, sep) == [s[..i]] + rest;
      assert ([s[..i]] + rest)[1..] == rest;
      JoinSplit(s[i + 1..], sep);
      assert s == s[..i] + [sep] + s[i + 1..];
    }
  }

  /** Splitting a join of separator-free fields gives the fields back. */
  lemma {:induction false} SplitJoin(fields: seq<string>, sep: char)
    requires |fields| >= 1
    requires forall k :: 0 <= k < |fields| ==> sep !in fields[k]
    ensures Split(Join(fields, sep), sep) == fields
  {
    var head := fields[0];
    assert forall j :: 0 <= j < |head| ==> head[j] != sep;
    if |fields| == 1 {
      FindAt(head, {sep}, |head|);
    } else {
      var tail := Join(fields[1..], sep);
      var s := head + [sep] + tail;
      assert Join(fields, sep) == s;
      var i := Find(s, {sep});
      assert s[|head|] == sep;
      assert forall j :: 0 <= j < |head| ==> s[j] == head[j];
      FindAt(s, {sep}, |head|);
      assert s[..i] == head;
      assert s[i + 1..] == tail;
      SplitJoin(fields[1..], sep);
      assert [head] + fields[1..] == fields;
    }
  }

  /** No piece of a split contains the separator. */
  lemma {:induction false} SplitPiecesSeparatorFree(s: string, sep: char)
    ensures forall k :: 0 <= k < |Split(s, sep)| ==> sep !in Split(s, sep)[k]
    decreases |s|
  {
    var i := Find(s, {sep});
    FindFirst(s, {sep});
    if i < |s| {
      SplitPiecesSeparatorFree(s[i + 1..], sep);
      var fields := Split(s, sep);
      assert fields == [s[..i]] + Split(s[i + 1..], sep);
      forall k | 0 <= k < |fields|
        ensures sep !in fields[k]
      {
        if k == 0 {
          assert forall j :: 0 <= j < i ==> s[..i][j] != sep;
        } else {
          assert fields[k] == Split(s[i + 1..], sep)[k - 1];
        }
      }
    } else {
      assert forall j :: 0 <= j < |s| ==> s[j] != sep;
    }
  }
}

=== FILE: wrappers.dfy ===
/** Failure-compatible result types used for the error paths of the model. */
module Wrappers {

  /** An optional value: the source's `None` or a present value. */
  datatype Option<+T> = None | Some(value: T)

  /** A value or the error that Python would have raised instead. */
  datatype Result<+T, +E> = Success(value: T) | Failure(error: E) {

    predicate IsFailure() {
      Failure?
    }

    function PropagateFailure<U>(): Result<U, E>
      requires Failure?
    {
      Failure(error)
    }

    function Extract(): T
      requires Success?
    {
      value
    }
  }
}
